=== FILE: README.md ===
# Stock tracker: product-URL resolver, catalog actions and stock checker

This project models the decision logic of a small stock-tracking tool for Flipkart, Amazon, Apple and Croma
products, and proves properties of that model in Dafny.

The first part is the admin side (`app/actions.js`):

- **`getProductDetails`** turns a product-page URL and an optional part number into a product descriptor
  `{name, productId, storeType, partNumber}`, or into the message of the error it throws and catches.
  - The host tests run in the fixed order Flipkart, Amazon, Apple, Croma.
  - Each store has its own extraction rule: the `pid` query parameter, the segment after `dp`, the supplied
    part number, or a trailing all-digit segment.
  - One name rule is shared by all four stores.
- **`addProduct` and `deleteProduct`** update the product table and signal a refresh of the listing page.

The second part is the checker (`api/check.py`):

- the Telegram MarkdownV2 escaper;
- the Amazon and Croma in-stock decisions over the decoded API answers;
- the `handler` entry point, which authorises the request, checks each product and assembles the alert.

Files and modules:

- `wrappers.dfy` (`Wrappers`): `Option` and `Result`.
- `strings.dfy` (`Strings`): the string operations the code relies on, each with its meaning proved.
  These are substring containment, `split('/')`, `indexOf`, the hyphen replacement, `slice(0, 50)` and `/^\d+$/`.
- `product_details.dfy` (`ProductDetails`): the resolver.
- `catalog.dfy` (`Catalog`): the two server actions.
  They are methods of the class `ProductStore`, which holds the product table as a map from id to record.
  It also holds the list of paths passed to `revalidatePath`.
- `markdown.dfy` (`Markdown`): `escape_markdown` and its inverse.
- `py_data.dfy` (`PyData`): decoded JSON values, plus Python's `dict.get`, `v[0]` and `in` on them.
  An operation that would raise gives `Raised`.
- `stock_check.dfy` (`StockCheck`): `check_amazon`, `check_croma` and `handler`.

Inputs that stand for the outside world:

- The URL parser's result is an input: `UrlInput`, either the parsed hostname, path and query pairs, or the
  parser's error message, which is never empty.
- The product store's verdict on an insert or a delete is a boolean input. An insert whose generated id is
  already taken is refused like any other constraint violation.
- Each store API's answer is an input: `Fetch`, the decoded body or a failed request.
- The handler receives the product list and the configured secret as parameters.

## Model

| member | source | states |
|---|---|---|
| `Strings.ContainsIffOccurs` | app/actions.js:12 | `includes` / Python `in` holds exactly when the text occurs at some index |
| `Strings.OccursContains` | app/actions.js:12 | an occurrence at any index makes the containment test true |
| `Strings.Split` | app/actions.js:32 | `split('/')` yields at least one part and no part holds the separator |
| `Strings.JoinSplit` | app/actions.js:32 | joining the parts with the separator gives back the path |
| `Strings.SplitUnique` | app/actions.js:68 | the parts are the only separator-free cutting of the path that joins back to it |
| `Strings.Join` | api/check.py:163 | `"\n\n".join(lines)` is empty for no lines and the line itself for one line; otherwise it starts with the first line and its length is the lines' total length plus one separator between each pair of neighbours |
| `Strings.JoinAppend` | api/check.py:163 | joining two non-empty runs of lines is joining each with one separator between them, so every line keeps its place and order |
| `Strings.IndexOf` | app/actions.js:33 | `indexOf('dp')` finds the first `dp` segment, and is -1 exactly when there is none |
| `Strings.ReplaceChar` | app/actions.js:20 | `replace(/-/g, ' ')` turns every hyphen into a space, keeps every other character and keeps the length |
| `Strings.Take` | app/actions.js:20 | `slice(0, 50)` is the prefix of length min(50, length) |
| `Strings.AllDigitsRegex` | app/actions.js:70 | `/^\d+$/`, matched a digit at a time, accepts exactly the non-empty strings whose every character is an ASCII decimal digit |
| `ProductDetails.SearchParam` | app/actions.js:14 | `searchParams.get('pid')` is the value of the first pair named `pid`, and is absent exactly when no pair has that name |
| `ProductDetails.MatchHost` | app/actions.js:12-82 | the chosen store's host key occurs in the hostname and no earlier store's key does; no store is chosen only when no key occurs |
| `ProductDetails.NameSource` | app/actions.js:19 | the text a name is built from is the path segment when it is present and non-empty, otherwise `"<Store> Product"`; it is never empty |
| `ProductDetails.FormatName` | app/actions.js:19-22 | the name is `"(<Store>) "`, then the first min(50, length) characters of the segment (or `"<Store> Product"` when the segment is missing or empty) with hyphens as spaces, then `"..."`; its length is at most the prefix length plus 53 |
| `ProductDetails.NameHasNoHyphen` | app/actions.js:19-20 | no display name contains a hyphen |
| `ProductDetails.ResolveFlipkart` | app/actions.js:12-27 | success exactly when `pid` is present and non-empty; then `productId = pid`, store `flipkart`, no part number, name from path segment 1; otherwise the missing-pid error |
| `ProductDetails.ResolveAmazon` | app/actions.js:30-49 | success exactly when there is a first `dp` segment followed by a non-empty segment; `productId` is that next segment and the name comes from the segment before `dp`; otherwise the ASIN error |
| `ProductDetails.ResolveApple` | app/actions.js:52-64 | success exactly when the part number is present and non-empty; then `productId` and `partNumber` both equal it; otherwise the part-number error |
| `ProductDetails.ResolveCroma` | app/actions.js:67-79 | success exactly when the last path segment is non-empty and all decimal digits; that segment is `productId` and the name comes from segment 1; otherwise the Croma error |
| `ProductDetails.Resolve` | app/actions.js:7-87 | a parse failure yields its own message; an unmatched host yields the unsupported-store error; every success has a non-empty `productId`, the store of the first matching host, and a part number exactly for Apple; every error message is non-empty |
| `ProductDetails.ResolveByHost` | app/actions.js:12-82 | the host tests apply in the order Flipkart, Amazon, Apple, Croma, the first that fires decides the result, and a host matching none gives the unsupported-store error |
| `Catalog.NewRecord` | app/actions.js:101-110 | the new row's id is the given id, and its name, productId, storeType and partNumber are the descriptor's and its url the given URL; `affiliateLink` is null exactly when the field is absent or empty; a well-formed descriptor gives a row that satisfies the store invariant |
| `Catalog.ProductStore.AddProduct` | app/actions.js:90-117 | an empty URL gives "URL is required."; a resolver error is returned unchanged; a refused insert gives the duplicate error; all three leave the store and the refresh list unchanged; a truthy URL that resolves, with the insert accepted under an unused id, always succeeds; a success adds exactly one row under the new id, signals one refresh of `/`, returns `"Added " + name` and keeps the store invariant |
| `Catalog.ProductStore.DeleteProduct` | app/actions.js:120-126 | an empty id, an unknown id or a refused delete changes nothing and reports nothing; otherwise exactly that row is removed and `/` is refreshed once |
| `Markdown.EscapeMarkdown` | api/check.py:19-21 | the output is longer than the input by the number of special characters, and every special character in it is preceded by a backslash |
| `Markdown.UnescapeEscape` | api/check.py:19-21 | dropping each backslash that precedes a special character gives back the input, so every character is kept in order |
| `Markdown.EscapeAppend` | api/check.py:21 | escaping works character by character: it distributes over concatenation |
| `Markdown.EscapePlain` | api/check.py:21 | a text without special characters is left unchanged |
| `PyData.Get` | api/check.py:76-81 | `d.get(key, default)` raises exactly when `d` is not a dict; otherwise it is the key's value when the key is present and the default when it is not |
| `PyData.First` | api/check.py:77 | `v[0]` succeeds exactly on a non-empty list or string; for a list it is the first element, for a string a one-character prefix |
| `PyData.In` | api/check.py:71 | `x in v` raises unless `v` is a string, list or dict; it holds for a string exactly when `x` occurs at some index, for a list exactly when some element is the string `x`, for a dict exactly when `x` is a key |
| `StockCheck.LinkToSend` | api/check.py:85 | `product.get("affiliateLink", product["url"])` raises exactly when `url` is missing, even when `affiliateLink` is present, because the default is evaluated first; otherwise it is `affiliateLink` when present, else `url` |
| `StockCheck.AmazonAvailability` | api/check.py:75-82 | reading the availability message succeeds only on a dict; a dict without `ItemsResult` gives the default `""`; an empty `Items` list raises, since `[0]` is taken of it |
| `StockCheck.AmazonAvailabilityRead` | api/check.py:75-82 | for an answer whose levels are dicts and non-empty lists, with any other keys and entries, down to the first missing key, the read never raises and gives the message when the whole path is present, otherwise `""` |
| `StockCheck.AmazonAnswer` | api/check.py:75-82 | the complete answer carrying a message reads back that message, or `""` when it has none |
| `StockCheck.AmazonInStock` | api/check.py:71-84 | in stock exactly when the response is a dict without an `"Errors"` key, reading the availability message (default `""`) does not raise, and `"In Stock" in` that message holds; for a string message this is substring containment; an `"Errors"` key is never in stock |
| `StockCheck.CheckAmazon` | api/check.py:56-89 | an alert is produced exactly when `asin`, `url` and `name` are present, the request succeeded and the decision says in stock; it names the product and links `affiliateLink` if present, else `url`; the alert text is never empty |
| `StockCheck.AmazonDecision` | api/check.py:71-86 | for a well-formed answer, in stock exactly when the message (`""` when absent) contains `"In Stock"`; an answer with `"Errors"` gives no alert |
| `StockCheck.CromaPromiseLine` | api/check.py:99-105 | reading the promise line succeeds only on a dict; a dict without `promise` gives the default empty list; a `promise` that is not a dict raises |
| `StockCheck.CromaPromiseLineRead` | api/check.py:99-105 | for an answer whose levels are dicts, with any other keys, down to the first missing key, the read never raises and gives the stored promise line when the whole path is present, otherwise `[]` |
| `StockCheck.CromaAnswer` | api/check.py:99-105 | the complete answer holding one line reads back the list of that line |
| `StockCheck.AsciiUpper` | api/check.py:112 | upper-casing keeps the length and maps each character on its own |
| `StockCheck.UpperIsY` | api/check.py:112 | `upper() == "Y"` holds for exactly `"Y"` and `"y"` |
| `StockCheck.CromaInStock` | api/check.py:99-112 | in stock exactly when the promise line is a non-empty list, its first entry is a dict, `availableQty` (default `"0"`) differs from `"0"`, and `deliveryOption` (default `"N"`) is `"Y"` in either case |
| `StockCheck.CheckCroma` | api/check.py:92-117 | an alert is produced exactly when `sku`, `url` and `name` are present, the request succeeded and the decision says in stock; it carries the pincode (default `"132103"`) and links `affiliateLink` if present, else `url`; the alert text is never empty |
| `StockCheck.CromaDecision` | api/check.py:99-114 | for a well-formed answer with one promise line, an alert is produced exactly when its `availableQty` (`"0"` when absent) is not `"0"` and its `deliveryOption` (`"N"` when absent) is `"Y"` or `"y"`; an empty answer gives no alert |
| `StockCheck.Pincode` | api/check.py:94 | the pincode is the product's `pincode` when present, otherwise `"132103"` |
| `StockCheck.Dispatch` | api/check.py:151-156 | `amazon` goes to the Amazon check, `croma` to the Croma check, any other source gives no result |
| `StockCheck.Somes` | api/check.py:158-159 | the filter keeps only present results, never more than there are products |
| `StockCheck.SomesAppend` | api/check.py:158-159 | appending one more result extends the in-stock list at its end, so input order is kept |
| `StockCheck.InStock` | api/check.py:149-159 | every in-stock line is the checker's result for some product, and there are at most as many lines as products; every line is non-empty, so keeping the present results is the same as keeping the truthy ones |
| `StockCheck.InStockAppend` | api/check.py:150-159 | checking product i appends its result, if any, after the results of products 0..i-1 |
| `StockCheck.Alert` | api/check.py:161-164 | a message is produced exactly when some product is in stock; it is the header and the lines joined with a blank line, escaped as `send_telegram_message` does at line 35: it is longer by the number of special characters, and un-escaping it gives back the header and the lines |
| `StockCheck.AlertEscaped` | api/check.py:35 | every special character of the posted alert follows a backslash, so the whole message is escaped before it is sent |
| `StockCheck.Handler` | api/check.py:120-172 | a wrong or missing secret gives 401 and no message; a product without `source` gives 500 and no message; otherwise 200, with the alert for exactly the in-stock list computed in product order |

## Left out

- The user interface is not part of this model: the page, the add form, the delete button and the layout. It holds no logic beyond calling the two actions.
- The order of the listing by creation time, and the `createdAt` timestamp, are left out. Both depend on the clock and the page query.
- The database is a map from id to record. Its uniqueness constraints are not visible in the code, so whether an insert or a delete is accepted is an input.
- `revalidatePath('/')` is recorded as the path appended to a list. The cache it invalidates is not modelled.
- URL parsing by the WHATWG URL Standard, including query-string decoding, is not modelled. The resolver takes its result.
- `formData.get` returning a file instead of a string is not modelled.
- `slice(0, 50)` counts UTF-16 code units in JavaScript. The model counts Unicode scalar values, so names with characters outside the Basic Multilingual Plane may be cut at a different point.
- All network traffic is not modelled: the Amazon and Croma requests and their payloads, JSON decoding, and the Telegram send loop over the chat ids. The delays, logging and environment loading are left out too.
- The hard-coded credentials and chat ids are configuration and are not part of this model.
- JSON numbers are kept as integers; floating point is not modelled. Only comparisons with strings use numbers, and those are unaffected.
- The handler's 500 path covers only the exception the loop itself can raise, the missing `source` key; the checkers catch everything else. A `query` entry that is not a dict, which would also end in 500, is not modelled.
- StockCheck.AsciiUpper: models Python's `str.upper()` for ASCII letters only. The only use is the comparison with `"Y"`, and no other character upper-cases to `"Y"`.
- The product list in `handler` is a hard-coded placeholder in the code, so it is a parameter here.

=== FILE: catalog.dfy ===
/**
 * The server actions `addProduct` and `deleteProduct` of app/actions.js over the product table, which is
 * represented as a map from record id to record. `revalidated` lists the paths handed to the view-refresh
 * signal, in order.
 */
module Catalog {
  import opened Wrappers
  import opened Strings
  import opened ProductDetails

  /** A stored product row. */
  datatype TrackedProduct = TrackedProduct(
    id: string,
    name: string,
    url: string,
    productId: string,
    storeType: StoreType,
    partNumber: Option<string>,
    affiliateLink: Option<string>)

  /** What a server action returns: `{ success: message }` or `{ error: message }`. */
  datatype ActionResult = Success(message: string) | Error(message: string)

  const URL_REQUIRED := "URL is required."
  const DUPLICATE_ERROR := "Failed to add product. Is it a duplicate?"
  const LISTING_PATH := "/"

  /** What every row written by `addProduct` satisfies. */
  predicate Stored(p: TrackedProduct)
  {
    && p.url != ""
    && p.productId != ""
    && (p.partNumber.Some? <==> p.storeType == Apple)
    && p.affiliateLink != Some("")
  }

  /** The row `addProduct` builds from a descriptor and the form fields. */
  function NewRecord(id: string, d: Descriptor, url: string, affiliateLink: Option<string>): (p: TrackedProduct)
    ensures && p.id == id && p.name == d.name && p.url == url && p.productId == d.productId
            && p.storeType == d.storeType && p.partNumber == d.partNumber
    ensures p.affiliateLink.None? <==> !Truthy(affiliateLink)
    ensures p.affiliateLink.Some? ==> p.affiliateLink == affiliateLink
    ensures WellFormed(d) && url != "" ==> Stored(p)
  {
    TrackedProduct(id, d.name, url, d.productId, d.storeType, d.partNumber,
                   if Truthy(affiliateLink) then affiliateLink else None)
  }

  class ProductStore {
    var products: map<string, TrackedProduct>
    var revalidated: seq<string>

    /** Every row is filed under its own id and satisfies `Stored`. */
    ghost predicate Valid()
      reads this
    {
      forall id :: id in products ==> products[id].id == id && Stored(products[id])
    }

    constructor ()
      ensures Valid() && products == map[] && revalidated == []
    {
      products := map[];
      revalidated := [];
    }

    /**
     * `addProduct(formData)`. `parsed` is what the URL parser makes of `url`; `newId` is the id the store
     * generates for the row and `storeAccepts` whether the store's own constraints admit it (those are not
     * visible in the source). Only a successful insert changes the store and signals a refresh.
     */
    method AddProduct(url: Option<string>, parsed: UrlInput, partNumber: Option<string>,
                      affiliateLink: Option<string>, newId: string, storeAccepts: bool)
      returns (r: ActionResult)
      requires Valid()
      modifies this
      ensures Valid()
      ensures !Truthy(url) ==> r == Error(URL_REQUIRED)
      ensures Truthy(url) && Resolve(parsed, partNumber).Err? ==> r == Error(Resolve(parsed, partNumber).error)
      ensures Truthy(url) && Resolve(parsed, partNumber).Ok? && !(storeAccepts && newId !in old(products))
              ==> r == Error(DUPLICATE_ERROR)
      ensures Truthy(url) && Resolve(parsed, partNumber).Ok? && storeAccepts && newId !in old(products)
              ==> r.Success?
      ensures r.Error? ==> products == old(products) && revalidated == old(revalidated)
      ensures r.Success? ==> && Truthy(url) && Resolve(parsed, partNumber).Ok?
                             && storeAccepts && newId !in old(products)
      ensures r.Success? ==>
                var d := Resolve(parsed, partNumber).value;
                && r.message == "Added " + d.name
                && products == old(products)[newId := NewRecord(newId, d, url.value, affiliateLink)]
                && |products| == |old(products)| + 1
                && revalidated == old(revalidated) + [LISTING_PATH]
    {
      if !Truthy(url) {
        return Error(URL_REQUIRED);
      }
      var details := Resolve(parsed, partNumber);
      if details.Err? {
        return Error(details.error);
      }
      if !storeAccepts || newId in products {
        return Error(DUPLICATE_ERROR);
      }
      products := products[newId := NewRecord(newId, details.value, url.value, affiliateLink)];
      revalidated := revalidated + [LISTING_PATH];
      r := Success("Added " + details.value.name);
    }

    /**
     * `deleteProduct(id)`. A falsy id does nothing; a delete the store refuses (an unknown id, or
     * `storeOk` false for any other failure) is swallowed and changes nothing.
     */
    method DeleteProduct(id: Option<string>, storeOk: bool)
      requires Valid()
      modifies this
      ensures Valid()
      ensures !Truthy(id) || id.value !in old(products) || !storeOk
              ==> products == old(products) && revalidated == old(revalidated)
      ensures Truthy(id) && id.value in old(products) && storeOk
              ==> && products == old(products) - {id.value}
                  && |products| == |old(products)| - 1
                  && revalidated == old(revalidated) + [LISTING_PATH]
    {
      if !Truthy(id) {
        return;
      }
      if id.value in products && storeOk {
        products := products - {id.value};
        revalidated := revalidated + [LISTING_PATH];
      }
    }
  }
}

=== FILE: markdown.dfy ===
/** `escape_markdown` of api/check.py: Telegram MarkdownV2 escaping of a message text. */
module Markdown {

  /** The characters the escaper puts a backslash in front of. */
  predicate IsSpecial(c: char)
  {
    c in "_*[]()~`>#+-=|{}.!"
  }

  /** How many characters of `s` are special. */
  function CountSpecial(s: string): nat
  {
    if |s| == 0 then 0 else (if IsSpecial(s[0]) then 1 else 0) + CountSpecial(s[1..])
  }

  /**
   * A backslash before every special character, every other character unchanged and in order. Every special
   * character of the result is escaped: it is preceded by a backslash.
   */
  function EscapeMarkdown(text: string): (r: string)
    ensures |r| == |text| + CountSpecial(text)
    ensures forall i :: 0 <= i < |r| && IsSpecial(r[i]) ==> 0 < i && r[i - 1] == '\\'
  {
    if |text| == 0 then ""
    else (if IsSpecial(text[0]) then ['\\', text[0]] else [text[0]]) + EscapeMarkdown(text[1..])
  }

  /** The inverse: drop each backslash that stands right before a special character. */
  function Unescape(s: string): (r: string)
    decreases |s|
  {
    if |s| == 0 then ""
    else if s[0] == '\\' && |s| >= 2 && IsSpecial(s[1]) then [s[1]] + Unescape(s[2..])
    else [s[0]] + Unescape(s[1..])
  }

  /** Unescaping the escaped text gives back the original text. */
  lemma {:induction false} UnescapeEscape(text: string)
    ensures Unescape(EscapeMarkdown(text)) == text
    decreases |text|
  {
    if |text| > 0 {
      var rest := EscapeMarkdown(text[1..]);
      UnescapeEscape(text[1..]);
      if IsSpecial(text[0]) {
        assert EscapeMarkdown(text) == ['\\', text[0]] + rest;
        assert (['\\', text[0]] + rest)[2..] == rest;
      } else {
        assert EscapeMarkdown(text) == [text[0]] + rest;
        assert ([text[0]] + rest)[1..] == rest;
        assert |rest| > 0 ==> !IsSpecial(rest[0]);
      }
      assert text == [text[0]] + text[1..];
    }
  }

  /** Escaping works character by character: it distributes over concatenation. */
  lemma {:induction false} EscapeAppend(a: string, b: string)
    ensures EscapeMarkdown(a + b) == EscapeMarkdown(a) + EscapeMarkdown(b)
    decreases |a|
  {
    if |a| > 0 {
      assert (a + b)[0] == a[0];
      assert (a + b)[1..] == a[1..] + b;
      EscapeAppend(a[1..], b);
    } else {
      assert a + b == b;
    }
  }

  /** A text with no special character is sent as it is. */
  lemma {:induction false} EscapePlain(text: string)
    requires forall i :: 0 <= i < |text| ==> !IsSpecial(text[i])
    ensures EscapeMarkdown(text) == text
    decreases |text|
  {
    if |text| > 0 {
      EscapePlain(text[1..]);
      assert text == [text[0]] + text[1..];
    }
  }
}

=== FILE: product_details.dfy ===
/**
 * The product-URL resolver `getProductDetails` of app/actions.js: from a parsed product-page URL and an
 * optional part number to a product descriptor, or to the message of the error it throws and catches.
 */
module ProductDetails {
  import opened Wrappers
  import opened Strings

  /** The four supported stores, in the order their hosts are tested. */
  datatype StoreType = Flipkart | Amazon | Apple | Croma

  /** The parts of a parsed URL the resolver reads; `query` holds the decoded name/value pairs in order. */
  datatype Url = Url(hostname: string, pathname: string, query: seq<(string, string)>)

  /** An error message from the URL parser; the parser never throws with an empty message. */
  type Message = s: string | s != "" witness "Invalid URL"

  /** The outcome of `new URL(url)`: the parsed URL, or the parser's error message. */
  datatype UrlInput = Parsed(url: Url) | Malformed(reason: Message)

  /** What a successful resolution returns: `{ name, productId, storeType, partNumber }`. */
  datatype Descriptor = Descriptor(name: string, productId: string, storeType: StoreType, partNumber: Option<string>)

  const FLIPKART_PID_ERROR := "Flipkart URL is missing a \"pid\" query parameter."
  const AMAZON_ASIN_ERROR := "Could not find a valid ASIN (e.g., /dp/B0CX59H5W7) in the Amazon URL."
  const APPLE_PART_ERROR := "Apple products require a Part Number."
  const CROMA_ID_ERROR := "Could not find a valid product ID in the Croma URL."
  const UNSUPPORTED_ERROR := "Sorry, only Croma, Apple, Amazon, and Flipkart URLs are supported."

  /** The text a hostname must contain for the store to be chosen. */
  function HostKey(st: StoreType): string
  {
    match st
    case Flipkart => "flipkart.com"
    case Amazon => "amazon.in"
    case Apple => "apple.com"
    case Croma => "croma.com"
  }

  /** The position of the store's host test in the resolver. */
  function Rank(st: StoreType): nat
  {
    match st
    case Flipkart => 0
    case Amazon => 1
    case Apple => 2
    case Croma => 3
  }

  /** The store's name as it appears in display names and fallbacks. */
  function Label(st: StoreType): string
  {
    match st
    case Flipkart => "Flipkart"
    case Amazon => "Amazon"
    case Apple => "Apple"
    case Croma => "Croma"
  }

  /** `"(<Store>) "`, the start of every display name. */
  function Prefix(st: StoreType): string
  {
    "(" + Label(st) + ") "
  }

  /** `"<Store> Product"`, used when the chosen path segment is missing or empty. */
  function Fallback(st: StoreType): string
  {
    Label(st) + " Product"
  }

  /** The store whose host test fires first, if any: the first store in rank order whose key the hostname contains. */
  function MatchHost(hostname: string): (r: Option<StoreType>)
    ensures r.Some? ==> Contains(hostname, HostKey(r.value))
    ensures r.Some? ==> forall st :: Rank(st) < Rank(r.value) ==> !Contains(hostname, HostKey(st))
    ensures r.None? ==> forall st :: !Contains(hostname, HostKey(st))
  {
    if Contains(hostname, "flipkart.com") then Some(Flipkart)
    else if Contains(hostname, "amazon.in") then Some(Amazon)
    else if Contains(hostname, "apple.com") then Some(Apple)
    else if Contains(hostname, "croma.com") then Some(Croma)
    else None
  }

  /** The raw text a display name starts from: the segment when it is truthy, the store's fallback otherwise. */
  function NameSource(st: StoreType, segment: Option<string>): (r: string)
    ensures r != ""
    ensures Truthy(segment) ==> r == segment.value
    ensures !Truthy(segment) ==> r == Fallback(st)
  {
    if Truthy(segment) then segment.value else Fallback(st)
  }

  /**
   * The shared name rule: hyphens become spaces, at most 50 characters are kept, `"..."` is appended and
   * `"(<Store>) "` is put in front.
   */
  function FormatName(st: StoreType, segment: Option<string>): (name: string)
    ensures var raw := NameSource(st, segment);
            var kept := if |raw| < 50 then |raw| else 50;
            && |name| == |Prefix(st)| + kept + 3
            && name[..|Prefix(st)|] == Prefix(st)
            && name[|name| - 3..] == "..."
            && forall i :: 0 <= i < kept ==> name[|Prefix(st)| + i] == (if raw[i] == '-' then ' ' else raw[i])
    ensures |name| <= |Prefix(st)| + 53
  {
    Prefix(st) + Take(ReplaceChar(NameSource(st, segment), '-', ' '), 50) + "..."
  }

  /** `s` holds no hyphen. */
  ghost predicate HyphenFree(s: string)
  {
    forall i :: 0 <= i < |s| ==> s[i] != '-'
  }

  /** Joining hyphen-free strings gives a hyphen-free string. */
  lemma HyphenFreeConcat(a: string, b: string)
    requires HyphenFree(a) && HyphenFree(b)
    ensures HyphenFree(a + b)
  {
    forall i | 0 <= i < |a + b|
      ensures (a + b)[i] != '-'
    {
      if i < |a| {
        assert (a + b)[i] == a[i];
      } else {
        assert (a + b)[i] == b[i - |a|];
      }
    }
  }

  /** No store prefix holds a hyphen. */
  lemma PrefixHyphenFree(st: StoreType)
    ensures HyphenFree(Prefix(st))
  {
    match st
    case Flipkart =>
    case Amazon =>
    case Apple =>
    case Croma =>
  }

  /** The truncated, hyphen-replaced segment holds no hyphen. */
  lemma BodyHyphenFree(raw: string)
    ensures HyphenFree(Take(ReplaceChar(raw, '-', ' '), 50))
  {
    var replaced := ReplaceChar(raw, '-', ' ');
    var body := Take(replaced, 50);
    forall i | 0 <= i < |body|
      ensures body[i] != '-'
    {
      assert body[i] == replaced[i];
    }
  }

  /** A display name holds no hyphen, whatever the segment held. */
  lemma NameHasNoHyphen(st: StoreType, segment: Option<string>)
    ensures '-' !in FormatName(st, segment)
  {
    var body := Take(ReplaceChar(NameSource(st, segment), '-', ' '), 50);
    BodyHyphenFree(NameSource(st, segment));
    PrefixHyphenFree(st);
    assert HyphenFree("...");
    HyphenFreeConcat(Prefix(st), body);
    HyphenFreeConcat(Prefix(st) + body, "...");
    var name := Prefix(st) + body + "...";
    assert FormatName(st, segment) == name;
    assert HyphenFree(name);
  }

  /** The first `"dp"` segment of the path sits at `k`. */
  ghost predicate FirstDp(parts: seq<string>, k: int)
  {
    0 <= k < |parts| && parts[k] == "dp" && forall j :: 0 <= j < k ==> parts[j] != "dp"
  }

  /** Flipkart: the product id is the `pid` query parameter; the name comes from the first path segment. */
  function ResolveFlipkart(u: Url): (r: Result<Descriptor>)
    ensures r.Ok? <==> Truthy(SearchParam(u.query, "pid"))
    ensures r.Err? ==> r.error == FLIPKART_PID_ERROR
    ensures r.Ok? ==> r.value == Descriptor(FormatName(Flipkart, At(Split(u.pathname, '/'), 1)),
                                            SearchParam(u.query, "pid").value, Flipkart, None)
  {
    var pid := SearchParam(u.query, "pid");
    if !Truthy(pid) then Err(FLIPKART_PID_ERROR)
    else Ok(Descriptor(FormatName(Flipkart, At(Split(u.pathname, '/'), 1)), pid.value, Flipkart, None))
  }

  /**
   * Amazon: the product id (ASIN) is the segment right after the first `"dp"` segment; the name comes from the
   * segment right before it.
   */
  function ResolveAmazon(u: Url): (r: Result<Descriptor>)
    ensures var parts := Split(u.pathname, '/');
            r.Ok? <==> exists k :: FirstDp(parts, k) && k + 1 < |parts| && parts[k + 1] != ""
    ensures r.Err? ==> r.error == AMAZON_ASIN_ERROR
    ensures var parts := Split(u.pathname, '/');
            r.Ok? ==> exists k :: && FirstDp(parts, k) && k + 1 < |parts|
                                  && r.value == Descriptor(FormatName(Amazon, At(parts, k - 1)), parts[k + 1], Amazon, None)
  {
    var parts := Split(u.pathname, '/');
    var dp := IndexOf(parts, "dp");
    if dp.None? || !Truthy(At(parts, dp.value + 1)) then
      assert forall k :: FirstDp(parts, k) ==> dp == Some(k);
      Err(AMAZON_ASIN_ERROR)
    else
      var k := dp.value;
      assert FirstDp(parts, k);
      Ok(Descriptor(FormatName(Amazon, At(parts, k - 1)), parts[k + 1], Amazon, None))
  }

  /** Apple: a truthy part number is required; it is both the product id and the part number. */
  function ResolveApple(u: Url, partNumber: Option<string>): (r: Result<Descriptor>)
    ensures r.Ok? <==> Truthy(partNumber)
    ensures r.Err? ==> r.error == APPLE_PART_ERROR
    ensures r.Ok? ==> r.value == Descriptor(FormatName(Apple, At(Split(u.pathname, '/'), 3)),
                                            partNumber.value, Apple, partNumber)
  {
    if !Truthy(partNumber) then Err(APPLE_PART_ERROR)
    else Ok(Descriptor(FormatName(Apple, At(Split(u.pathname, '/'), 3)), partNumber.value, Apple, partNumber))
  }

  /** Croma: the last path segment must be all digits and is the product id; the name comes from the second segment. */
  function ResolveCroma(u: Url): (r: Result<Descriptor>)
    ensures var parts := Split(u.pathname, '/');
            r.Ok? <==> AllDigits(parts[|parts| - 1])
    ensures r.Err? ==> r.error == CROMA_ID_ERROR
    ensures var parts := Split(u.pathname, '/');
            r.Ok? ==> r.value == Descriptor(FormatName(Croma, At(parts, 1)), parts[|parts| - 1], Croma, None)
  {
    var parts := Split(u.pathname, '/');
    var pid := parts[|parts| - 1];
    if !AllDigits(pid) then Err(CROMA_ID_ERROR)
    else Ok(Descriptor(FormatName(Croma, At(parts, 1)), pid, Croma, None))
  }

  /** `URLSearchParams.get(key)`: the value of the first pair named `key`, or `None`. */
  function SearchParam(query: seq<(string, string)>, key: string): (r: Option<string>)
    ensures r.Some? <==> exists i :: 0 <= i < |query| && query[i].0 == key
    ensures r.Some? ==> exists i :: && 0 <= i < |query| && query[i] == (key, r.value)
                                    && forall j :: 0 <= j < i ==> query[j].0 != key
  {
    if |query| == 0 then None
    else if query[0].0 == key then Some(query[0].1)
    else
      var r := SearchParam(query[1..], key);
      if r.Some? then
        var i :| 0 <= i < |query[1..]| && query[1..][i] == (key, r.value)
                 && forall j :: 0 <= j < i ==> query[1..][j].0 != key;
        assert query[i + 1] == (key, r.value);
        r
      else r
  }

  /** The descriptor invariants: a non-empty product id, and a part number exactly for Apple. */
  predicate WellFormed(d: Descriptor)
  {
    d.productId != "" && (d.partNumber.Some? <==> d.storeType == Apple)
  }

  /**
   * `getProductDetails(url, partNumber)`: dispatch on the first matching host, or the parser's error, or the
   * unsupported-store error. Every thrown error becomes an `Err` carrying its message.
   */
  function Resolve(input: UrlInput, partNumber: Option<string>): (r: Result<Descriptor>)
    ensures input.Malformed? ==> r == Err(input.reason)
    ensures input.Parsed? && MatchHost(input.url.hostname).None? ==> r == Err(UNSUPPORTED_ERROR)
    ensures r.Ok? ==> input.Parsed? && MatchHost(input.url.hostname) == Some(r.value.storeType)
    ensures r.Ok? ==> WellFormed(r.value)
    ensures r.Err? ==> r.error != ""
  {
    match input
    case Malformed(reason) => Err(reason)
    case Parsed(u) =>
      match MatchHost(u.hostname)
      case Some(Flipkart) => ResolveFlipkart(u)
      case Some(Amazon) => ResolveAmazon(u)
      case Some(Apple) => ResolveApple(u, partNumber)
      case Some(Croma) => ResolveCroma(u)
      case None => Err(UNSUPPORTED_ERROR)
  }

  /**
   * The host tests run in the order Flipkart, Amazon, Apple, Croma and the first one that fires decides the
   * result; a host none of them matches gives the unsupported-store error.
   */
  lemma ResolveByHost(u: Url, partNumber: Option<string>)
    ensures var h, r := u.hostname, Resolve(Parsed(u), partNumber);
            var f, a, p, c := Contains(h, "flipkart.com"), Contains(h, "amazon.in"),
                              Contains(h, "apple.com"), Contains(h, "croma.com");
            && (f ==> r == ResolveFlipkart(u))
            && (!f && a ==> r == ResolveAmazon(u))
            && (!f && !a && p ==> r == ResolveApple(u, partNumber))
            && (!f && !a && !p && c ==> r == ResolveCroma(u))
            && (!f && !a && !p && !c ==> r == Err(UNSUPPORTED_ERROR))
  {
  }
}

=== FILE: py_data.dfy ===
/**
 * Decoded JSON values as api/check.py handles them, and the three Python operations it applies to them:
 * `d.get(key, default)`, `v[0]` and `x in v`. An operation Python would raise on yields `Raised`.
 */
module PyData {
  import opened Strings

  /** A value produced by decoding JSON (numbers are kept as integers). */
  datatype Json = JNull | JBool(b: bool) | JNum(n: int) | JStr(s: string) | JArr(items: seq<Json>) | JObj(fields: map<string, Json>)

  /** The value of a Python expression, or the fact that it raised. */
  datatype Eval<+T> = Value(v: T) | Raised {
    predicate IsFailure() { Raised? }

    function PropagateFailure<U>(): Eval<U>
      requires Raised?
    {
      Raised
    }

    function Extract(): T
      requires Value?
    {
      v
    }
  }

  /** `d.get(key, default)`: only a dict has `get`. */
  function Get(d: Json, key: string, default: Json): (r: Eval<Json>)
    ensures r.Raised? <==> !d.JObj?
    ensures d.JObj? && key in d.fields ==> r == Value(d.fields[key])
    ensures d.JObj? && key !in d.fields ==> r == Value(default)
  {
    match d
    case JObj(fields) => Value(if key in fields then fields[key] else default)
    case _ => Raised
  }

  /**
   * `v[0]`: the first element of a non-empty list, the first character of a non-empty string; an empty one
   * raises `IndexError`, a dict raises `KeyError` (decoded keys are strings), anything else `TypeError`.
   */
  function First(v: Json): (r: Eval<Json>)
    ensures r.Value? <==> (v.JArr? && |v.items| > 0) || (v.JStr? && |v.s| > 0)
    ensures r.Value? && v.JArr? ==> r.v == v.items[0]
    ensures r.Value? && v.JStr? ==> r.v.JStr? && |r.v.s| == 1 && r.v.s <= v.s
  {
    match v
    case JArr(items) => if |items| > 0 then Value(items[0]) else Raised
    case JStr(s) => if |s| > 0 then Value(JStr([s[0]])) else Raised
    case _ => Raised
  }

  /** `needle in v`: substring for a string, element for a list, key for a dict; other values raise `TypeError`. */
  function In(needle: string, v: Json): (r: Eval<bool>)
    ensures r.Value? <==> v.JStr? || v.JArr? || v.JObj?
    ensures v.JStr? ==> (r == Value(true) <==> exists i :: OccursAt(v.s, needle, i))
    ensures v.JArr? ==> (r == Value(true) <==> exists k :: 0 <= k < |v.items| && v.items[k] == JStr(needle))
    ensures v.JObj? ==> (r == Value(true) <==> needle in v.fields)
  {
    match v
    case JStr(s) =>
      ContainsIffOccurs(s, needle);
      Value(Contains(s, needle))
    case JArr(items) => Value(JStr(needle) in items)
    case JObj(fields) => Value(needle in fields)
    case _ => Raised
  }

  /**
   * The dict `fields` with `key` set to `child` when `present`, and without `key` otherwise: one level of a
   * nested answer in which a key may be missing.
   */
  function Place(fields: map<string, Json>, key: string, child: Json, present: bool): (v: Json)
    ensures v.JObj?
    ensures present ==> key in v.fields && v.fields[key] == child
    ensures !present ==> key !in v.fields
    ensures forall k :: k != key ==> (k in v.fields <==> k in fields)
  {
    JObj(if present then fields[key := child] else fields - {key})
  }
}

=== FILE: stock_check.dfy ===
/**
 * The stock checker of api/check.py: the Amazon and Croma availability decisions over the decoded responses
 * of their APIs, and the `handler` entry point that authorises the request, checks every product and
 * assembles the alert. Network responses are inputs: `FetchFailed` stands for a request or decoding
 * exception, which the checkers catch.
 */
module StockCheck {
  import opened Wrappers
  import opened Strings
  import opened PyData
  import opened Markdown

  /** What came back from a store's API: the decoded body, or an exception while fetching or decoding it. */
  datatype Fetch = Decoded(data: Json) | FetchFailed

  /** A product entry: a dict of string fields such as `name`, `url`, `asin`, `sku`, `source`, `affiliateLink`. */
  type Product = map<string, string>

  /** The handler's reply. `alert` is the text posted to every chat, or `None` when nothing is sent. */
  datatype Response = Response(statusCode: int, body: string, alert: Option<string>)

  const CROMA_DEFAULT_PINCODE := "132103"
  const UNAUTHORIZED_BODY := "{\"error\": \"Unauthorized\"}"
  const COMPLETE_BODY := "{\"message\": \"Stock check complete.\"}"
  const MISSING_SOURCE_BODY := "{\"error\": \"'source'\"}"
  const ALERT_HEADER := "\U{1F525} *Stock Alert!*\n\n"
  const ALERT_SEPARATOR := "\n\n"

  /** The link an alert carries: `affiliateLink` when the key is present, otherwise `url`. */
  function SendLink(product: Product): string
    requires "url" in product
  {
    if "affiliateLink" in product then product["affiliateLink"] else product["url"]
  }

  /**
   * `product.get("affiliateLink", product["url"])`: Python evaluates the default first, so a product without
   * `url` raises even when it has an `affiliateLink`.
   */
  function LinkToSend(product: Product): (r: Eval<string>)
    ensures r.Value? <==> "url" in product
    ensures "url" in product && "affiliateLink" in product ==> r == Value(product["affiliateLink"])
    ensures "url" in product && "affiliateLink" !in product ==> r == Value(product["url"])
  {
    if "url" in product then Value(SendLink(product)) else Raised
  }

  function AmazonMessage(name: string, link: string): string
  {
    "\U{1F6D2} *Amazon In Stock*\n[" + name + "](" + link + ")"
  }

  function CromaMessage(pincode: string, name: string, link: string): string
  {
    "\U{2705} *In Stock at Croma (" + pincode + ")*\n[" + name + "](" + link + ")"
  }

  /** `ItemsResult.Items[0].Offers.Listings[0].Availability.Message`, with the defaults the source supplies. */
  function AmazonAvailability(data: Json): (r: Eval<Json>)
    ensures r.Value? ==> data.JObj?
    ensures data.JObj? && "ItemsResult" !in data.fields ==> r == Value(JStr(""))
    ensures data.JObj? && "ItemsResult" in data.fields && data.fields["ItemsResult"] == JObj(map["Items" := JArr([])])
            ==> r.Raised?
  {
    var result :- Get(data, "ItemsResult", JObj(map[]));
    var items :- Get(result, "Items", JArr([JObj(map[])]));
    var item :- First(items);
    var offers :- Get(item, "Offers", JObj(map[]));
    var listings :- Get(offers, "Listings", JArr([JObj(map[])]));
    var listing :- First(listings);
    var availability :- Get(listing, "Availability", JObj(map[]));
    Get(availability, "Message", JStr(""))
  }

  /**
   * Whether the Amazon response reports the item in stock: an `"Errors"` entry means no; otherwise the
   * availability message must contain `"In Stock"`.
   */
  function AmazonInStock(data: Json): (r: Eval<bool>)
    ensures data.JObj? && "Errors" in data.fields ==> r == Value(false)
    ensures data.JObj? && "Errors" !in data.fields && AmazonAvailability(data).Value?
            && AmazonAvailability(data).v.JStr?
            ==> r == Value(Contains(AmazonAvailability(data).v.s, "In Stock"))
    ensures r == Value(true) <==> && data.JObj? && "Errors" !in data.fields
                                  && AmazonAvailability(data).Value?
                                  && In("In Stock", AmazonAvailability(data).v) == Value(true)
  {
    var errors :- In("Errors", data);
    if errors then Value(false)
    else
      var availability :- AmazonAvailability(data);
      In("In Stock", availability)
  }

  /** `check_amazon(product)` given the API's answer: the alert line when in stock, `None` otherwise or on any exception. */
  function CheckAmazon(product: Product, response: Fetch): (r: Option<string>)
    ensures r.Some? <==> && "asin" in product && "url" in product && "name" in product
                         && response.Decoded? && AmazonInStock(response.data) == Value(true)
    ensures r.Some? ==> r.value == AmazonMessage(product["name"], SendLink(product))
    ensures r.Some? ==> r.value != ""
  {
    if "asin" !in product then None
    else
      match response
      case FetchFailed => None
      case Decoded(data) =>
        if AmazonInStock(data) != Value(true) then None
        else
          match LinkToSend(product)
          case Raised => None
          case Value(link) => if "name" in product then Some(AmazonMessage(product["name"], link)) else None
  }

  /** A well-formed Amazon answer whose one listing has the availability message `message`, if any. */
  function AmazonAnswer(message: Option<string>): (answer: Json)
    ensures AmazonAvailability(answer) == Value(JStr(message.GetOr("")))
  {
    var availability := if message.Some? then JObj(map["Message" := JStr(message.value)]) else JObj(map[]);
    var listing := JObj(map["Availability" := availability]);
    var item := JObj(map["Offers" := JObj(map["Listings" := JArr([listing])])]);
    JObj(map["ItemsResult" := JObj(map["Items" := JArr([item])])])
  }

  /**
   * An Amazon answer whose first `depth` keys along `ItemsResult.Items[0].Offers.Listings[0].Availability.Message`
   * are present and whose next key is missing. Every level may hold other keys, and each list may hold further
   * entries after the first.
   */
  function AmazonAnswerAt(depth: nat, top: map<string, Json>, result: map<string, Json>, item: map<string, Json>,
                          moreItems: seq<Json>, offers: map<string, Json>, listing: map<string, Json>,
                          moreListings: seq<Json>, availability: map<string, Json>, message: Json): Json
  {
    var a := Place(availability, "Message", message, depth > 5);
    var l := Place(listing, "Availability", a, depth > 4);
    var o := Place(offers, "Listings", JArr([l] + moreListings), depth > 3);
    var i := Place(item, "Offers", o, depth > 2);
    var r := Place(result, "Items", JArr([i] + moreItems), depth > 1);
    Place(top, "ItemsResult", r, depth > 0)
  }

  /**
   * Reading the availability of such an answer never raises: it is the message when every key is present,
   * and the default `""` when any key on the path is missing.
   */
  lemma AmazonAvailabilityRead(depth: nat, top: map<string, Json>, result: map<string, Json>,
                               item: map<string, Json>, moreItems: seq<Json>, offers: map<string, Json>,
                               listing: map<string, Json>, moreListings: seq<Json>,
                               availability: map<string, Json>, message: Json)
    ensures AmazonAvailability(AmazonAnswerAt(depth, top, result, item, moreItems, offers, listing, moreListings,
                                              availability, message))
            == Value(if depth > 5 then message else JStr(""))
  {
  }

  /**
   * For a well-formed answer the product is in stock exactly when the message, `""` when absent, contains
   * `"In Stock"`; an answer with an `"Errors"` entry never reports stock.
   */
  lemma AmazonDecision(product: Product, message: Option<string>, errors: map<string, Json>)
    requires "asin" in product && "url" in product && "name" in product
    requires "Errors" in errors
    ensures CheckAmazon(product, Decoded(AmazonAnswer(message))).Some? <==> Contains(message.GetOr(""), "In Stock")
    ensures CheckAmazon(product, Decoded(JObj(errors))) == None
  {
    var data := AmazonAnswer(message);
    assert "Errors" !in data.fields;
    assert AmazonAvailability(data) == Value(JStr(message.GetOr("")));
  }

  /** `promise.suggestedOption.option.promiseLines.promiseLine`, with the defaults the source supplies. */
  function CromaPromiseLine(data: Json): (r: Eval<Json>)
    ensures r.Value? ==> data.JObj?
    ensures data.JObj? && "promise" !in data.fields ==> r == Value(JArr([]))
    ensures data.JObj? && "promise" in data.fields && !data.fields["promise"].JObj? ==> r.Raised?
  {
    var promise :- Get(data, "promise", JObj(map[]));
    var suggested :- Get(promise, "suggestedOption", JObj(map[]));
    var option :- Get(suggested, "option", JObj(map[]));
    var lines :- Get(option, "promiseLines", JObj(map[]));
    Get(lines, "promiseLine", JArr([]))
  }

  /** A promise line whose `availableQty` and `deliveryOption` are the given strings, each absent when `None`. */
  function CromaLine(availableQty: Option<string>, deliveryOption: Option<string>): Json
  {
    var qty: map<string, Json> := if availableQty.Some? then map["availableQty" := JStr(availableQty.value)] else map[];
    var delivery: map<string, Json> :=
      if deliveryOption.Some? then map["deliveryOption" := JStr(deliveryOption.value)] else map[];
    JObj(qty + delivery)
  }

  /** A well-formed Croma answer whose promise-line list holds the one entry `line`. */
  function CromaAnswer(line: Json): (answer: Json)
    ensures CromaPromiseLine(answer) == Value(JArr([line]))
  {
    var lines := JObj(map["promiseLine" := JArr([line])]);
    JObj(map["promise" := JObj(map["suggestedOption" := JObj(map["option" := JObj(map["promiseLines" := lines])])])])
  }

  /**
   * A Croma answer whose first `depth` keys along `promise.suggestedOption.option.promiseLines.promiseLine`
   * are present and whose next key is missing. Every level may hold other keys.
   */
  function CromaAnswerAt(depth: nat, top: map<string, Json>, promise: map<string, Json>,
                         suggested: map<string, Json>, option: map<string, Json>, lines: map<string, Json>,
                         promiseLine: Json): Json
  {
    var pl := Place(lines, "promiseLine", promiseLine, depth > 4);
    var ls := Place(option, "promiseLines", pl, depth > 3);
    var op := Place(suggested, "option", ls, depth > 2);
    var sg := Place(promise, "suggestedOption", op, depth > 1);
    Place(top, "promise", sg, depth > 0)
  }

  /**
   * Reading the promise line of such an answer never raises: it is the stored value when every key is
   * present, and the default empty list when any key on the path is missing.
   */
  lemma CromaPromiseLineRead(depth: nat, top: map<string, Json>, promise: map<string, Json>,
                             suggested: map<string, Json>, option: map<string, Json>, lines: map<string, Json>,
                             promiseLine: Json)
    ensures CromaPromiseLine(CromaAnswerAt(depth, top, promise, suggested, option, lines, promiseLine))
            == Value(if depth > 4 then promiseLine else JArr([]))
  {
  }

  /**
   * For a well-formed answer the product is in stock exactly when the line's quantity (`"0"` when absent)
   * is not `"0"` and its delivery option (`"N"` when absent) is `"Y"` or `"y"`; an answer without a
   * `promise` never reports stock.
   */
  lemma CromaDecision(product: Product, availableQty: Option<string>, deliveryOption: Option<string>)
    requires "sku" in product && "url" in product && "name" in product
    ensures CheckCroma(product, Decoded(CromaAnswer(CromaLine(availableQty, deliveryOption)))).Some?
            <==> availableQty.GetOr("0") != "0" && (deliveryOption.GetOr("N") == "Y" || deliveryOption.GetOr("N") == "y")
    ensures CheckCroma(product, Decoded(JObj(map[]))) == None
  {
  }

  /** The ASCII upper-case form of a character. */
  function UpperChar(c: char): char
  {
    if 'a' <= c <= 'z' then (c as int - 'a' as int + 'A' as int) as char else c
  }

  /** `s.upper()` restricted to the ASCII letters. */
  function AsciiUpper(s: string): (r: string)
    ensures |r| == |s|
    ensures forall i :: 0 <= i < |s| ==> r[i] == UpperChar(s[i])
  {
    if |s| == 0 then "" else [UpperChar(s[0])] + AsciiUpper(s[1..])
  }

  /** `s.upper() == "Y"` holds for exactly the two strings `"Y"` and `"y"`. */
  lemma UpperIsY(s: string)
    ensures AsciiUpper(s) == "Y" <==> s == "Y" || s == "y"
  {
    if AsciiUpper(s) == "Y" {
      assert |s| == 1 && UpperChar(s[0]) == 'Y';
      assert s == [s[0]];
    }
  }

  /**
   * Whether the Croma response reports the item in stock: the promise line is a non-empty list whose first
   * entry has an `availableQty` other than `"0"` (default `"0"`) and a `deliveryOption` equal to `"Y"`
   * ignoring case (default `"N"`). The `and` stops before `upper()` when the quantity is `"0"`.
   */
  function CromaInStock(data: Json): (r: Eval<bool>)
    ensures r == Value(true) <==>
              && CromaPromiseLine(data).Value?
              && var pl := CromaPromiseLine(data).v;
                 && pl.JArr? && |pl.items| > 0 && pl.items[0].JObj?
                 && var line := pl.items[0].fields;
                    && (if "availableQty" in line then line["availableQty"] else JStr("0")) != JStr("0")
                    && "deliveryOption" in line && line["deliveryOption"].JStr?
                    && (line["deliveryOption"].s == "Y" || line["deliveryOption"].s == "y")
  {
    var promiseLine :- CromaPromiseLine(data);
    if promiseLine.JArr? && |promiseLine.items| > 0 then
      var line := promiseLine.items[0];
      var availableQty :- Get(line, "availableQty", JStr("0"));
      // the first `get` succeeded, so `line` is a dict and this one cannot raise
      var deliveryOption := Get(line, "deliveryOption", JStr("N")).v;
      if availableQty == JStr("0") then Value(false)
      else if !deliveryOption.JStr? then Raised
      else
        UpperIsY(deliveryOption.s);
        Value(AsciiUpper(deliveryOption.s) == "Y")
    else Value(false)
  }

  /** `check_croma(product)` given the API's answer: the alert line when in stock, `None` otherwise or on any exception. */
  function CheckCroma(product: Product, response: Fetch): (r: Option<string>)
    ensures r.Some? <==> && "sku" in product && "url" in product && "name" in product
                         && response.Decoded? && CromaInStock(response.data) == Value(true)
    ensures r.Some? ==> r.value == CromaMessage(Pincode(product), product["name"], SendLink(product))
    ensures r.Some? ==> r.value != ""
  {
    var pincode := Pincode(product);
    if "sku" !in product then None
    else
      match response
      case FetchFailed => None
      case Decoded(data) =>
        if CromaInStock(data) != Value(true) then None
        else
          match LinkToSend(product)
          case Raised => None
          case Value(link) => if "name" in product then Some(CromaMessage(pincode, product["name"], link)) else None
  }

  /** `product.get("pincode", "132103")`. */
  function Pincode(product: Product): (r: string)
    ensures "pincode" in product ==> r == product["pincode"]
    ensures "pincode" !in product ==> r == CROMA_DEFAULT_PINCODE
  {
    if "pincode" in product then product["pincode"] else CROMA_DEFAULT_PINCODE
  }

  /** Every product names its source; otherwise the loop raises `KeyError('source')`. */
  predicate AllHaveSource(products: seq<Product>)
  {
    forall k :: 0 <= k < |products| ==> "source" in products[k]
  }

  /** The per-product dispatch on `source`: Amazon, Croma, or no result. */
  function Dispatch(product: Product, response: Fetch): (r: Option<string>)
    requires "source" in product
    ensures r.Some? ==> product["source"] == "amazon" || product["source"] == "croma"
    ensures product["source"] == "amazon" ==> r == CheckAmazon(product, response)
    ensures product["source"] == "croma" ==> r == CheckCroma(product, response)
  {
    if product["source"] == "amazon" then CheckAmazon(product, response)
    else if product["source"] == "croma" then CheckCroma(product, response)
    else None
  }

  /** The checker's answer for each product, in order. */
  function Results(products: seq<Product>, responses: seq<Fetch>): (rs: seq<Option<string>>)
    requires |responses| == |products| && AllHaveSource(products)
    ensures |rs| == |products|
    ensures forall k :: 0 <= k < |products| ==> rs[k] == Dispatch(products[k], responses[k])
  {
    seq(|products|, k requires 0 <= k < |products| => Dispatch(products[k], responses[k]))
  }

  /** The present values of `rs`, in order: the `if result: in_stock.append(result)` filter. */
  function Somes(rs: seq<Option<string>>): (found: seq<string>)
    ensures |found| <= |rs|
    ensures forall m :: m in found ==> Some(m) in rs
  {
    if |rs| == 0 then []
    else (if rs[0].Some? then [rs[0].value] else []) + Somes(rs[1..])
  }

  /** Filtering distributes over concatenation, so appending to the list keeps the order of the products. */
  lemma {:induction false} SomesAppend(a: seq<Option<string>>, b: seq<Option<string>>)
    ensures Somes(a + b) == Somes(a) + Somes(b)
    decreases |a|
  {
    if |a| == 0 {
      assert a + b == b;
    } else {
      assert (a + b)[0] == a[0];
      assert (a + b)[1..] == a[1..] + b;
      SomesAppend(a[1..], b);
    }
  }

  /** The alert lines of the products in stock, in the order of the products. */
  function InStock(products: seq<Product>, responses: seq<Fetch>): (found: seq<string>)
    requires |responses| == |products| && AllHaveSource(products)
    ensures |found| <= |products|
    ensures forall m :: m in found ==> exists k :: 0 <= k < |products| && Dispatch(products[k], responses[k]) == Some(m)
    ensures forall m :: m in found ==> m != ""
  {
    var rs := Results(products, responses);
    var found := Somes(rs);
    assert forall m :: m in found ==> Some(m) in rs;
    found
  }

  /** Checking one more product appends its result, if any, at the end. */
  lemma InStockAppend(products: seq<Product>, responses: seq<Fetch>, i: nat)
    requires |responses| == |products| && AllHaveSource(products) && i < |products|
    ensures var d := Dispatch(products[i], responses[i]);
            InStock(products[..i + 1], responses[..i + 1])
              == InStock(products[..i], responses[..i]) + (if d.Some? then [d.value] else [])
  {
    var d := Dispatch(products[i], responses[i]);
    var before := Results(products[..i], responses[..i]);
    assert Results(products[..i + 1], responses[..i + 1]) == before + [d];
    SomesAppend(before, [d]);
    assert Somes([d]) == (if d.Some? then [d.value] else []) + Somes([]);
  }

  /** The text posted to every chat: the header and the alert lines joined by blank lines, then escaped. */
  function Alert(found: seq<string>): (r: Option<string>)
    ensures r.Some? <==> found != []
    ensures r.Some? ==> Unescape(r.value) == ALERT_HEADER + Join(found, ALERT_SEPARATOR)
    ensures r.Some? ==> var raw := ALERT_HEADER + Join(found, ALERT_SEPARATOR);
                        |r.value| == |raw| + CountSpecial(raw)
  {
    if found == [] then None
    else
      UnescapeEscape(ALERT_HEADER + Join(found, ALERT_SEPARATOR));
      Some(EscapeMarkdown(ALERT_HEADER + Join(found, ALERT_SEPARATOR)))
  }

  /** Every special character of the posted text follows a backslash: the whole message is escaped. */
  lemma AlertEscaped(found: seq<string>)
    requires found != []
    ensures var text := Alert(found).value;
            forall i :: 0 <= i < |text| && IsSpecial(text[i]) ==> 0 < i && text[i - 1] == '\\'
  {
    var raw := ALERT_HEADER + Join(found, ALERT_SEPARATOR);
    assert Alert(found).value == EscapeMarkdown(raw);
  }

  /**
   * `handler(request)`: an unauthorised request gets 401 and nothing is checked; otherwise every product is
   * dispatched on its source, the in-stock lines are collected in order and, when there are any, one alert is
   * sent. A product without `source` aborts the loop with 500.
   */
  method Handler(query: map<string, string>, authSecret: string, products: seq<Product>, responses: seq<Fetch>)
    returns (resp: Response)
    requires |responses| == |products|
    ensures !("secret" in query && query["secret"] == authSecret) ==> resp == Response(401, UNAUTHORIZED_BODY, None)
    ensures "secret" in query && query["secret"] == authSecret && !AllHaveSource(products)
            ==> resp == Response(500, MISSING_SOURCE_BODY, None)
    ensures "secret" in query && query["secret"] == authSecret && AllHaveSource(products)
            ==> resp == Response(200, COMPLETE_BODY, Alert(InStock(products, responses)))
  {
    if !("secret" in query && query["secret"] == authSecret) {
      return Response(401, UNAUTHORIZED_BODY, None);
    }
    var inStock: seq<string> := [];
    var i := 0;
    while i < |products|
      invariant 0 <= i <= |products|
      invariant AllHaveSource(products[..i])
      invariant inStock == InStock(products[..i], responses[..i])
    {
      if "source" !in products[i] {
        return Response(500, MISSING_SOURCE_BODY, None);
      }
      var result: Option<string>;
      if products[i]["source"] == "amazon" {
        result := CheckAmazon(products[i], responses[i]);
      } else if products[i]["source"] == "croma" {
        result := CheckCroma(products[i], responses[i]);
      } else {
        result := None;
      }
      assert result == Dispatch(products[i], responses[i]);
      assert AllHaveSource(products[..i + 1]);
      InStockAppend(products[..i + 1], responses[..i + 1], i);
      assert products[..i + 1][i] == products[i] && responses[..i + 1][i] == responses[i];
      assert products[..i + 1][..i] == products[..i] && responses[..i + 1][..i] == responses[..i];
      assert products[..i + 1][..i + 1] == products[..i + 1] && responses[..i + 1][..i + 1] == responses[..i + 1];
      if result.Some? {
        inStock := inStock + [result.value];
      }
      i := i + 1;
    }
    assert products[..i] == products && responses[..i] == responses;
    return Response(200, COMPLETE_BODY, Alert(inStock));
  }
}

=== FILE: strings.dfy ===
/** String operations the resolver and the stock checker rely on, each with its meaning stated. */
module Strings {
  import opened Wrappers

  /** `t` occurs in `s` starting at index `i`. */
  ghost predicate OccursAt(s: string, t: string, i: int)
  {
    0 <= i && i + |t| <= |s| && s[i..i + |t|] == t
  }

  /** Substring containment: JavaScript `s.includes(t)`, Python `t in s`. */
  predicate Contains(s: string, t: string)
    decreases |s|
  {
    t <= s || (|s| > 0 && Contains(s[1..], t))
  }

  /** An occurrence of `t` in `s` makes `Contains(s, t)` true. */
  lemma {:induction false} OccursContains(s: string, t: string, i: int)
    requires OccursAt(s, t, i)
    ensures Contains(s, t)
    decreases i
  {
    if i == 0 {
      assert s[..|t|] == t;
    } else {
      assert s[1..][i - 1..i - 1 + |t|] == s[i..i + |t|];
      OccursContains(s[1..], t, i - 1);
    }
  }

  /** `Contains` holds exactly when `t` occurs somewhere in `s`. */
  lemma {:induction false} ContainsIffOccurs(s: string, t: string)
    ensures Contains(s, t) <==> exists i :: OccursAt(s, t, i)
    decreases |s|
  {
    if Contains(s, t) {
      if t <= s {
        assert s[0..|t|] == t;
        assert OccursAt(s, t, 0);
      } else {
        ContainsIffOccurs(s[1..], t);
        var i :| OccursAt(s[1..], t, i);
        assert s[1..][i..i + |t|] == s[i + 1..i + 1 + |t|];
        assert OccursAt(s, t, i + 1);
      }
    } else if exists i :: OccursAt(s, t, i) {
      var i :| OccursAt(s, t, i);
      OccursContains(s, t, i);
    }
  }

  /** JavaScript `s.split(sep)` for a one-character separator: always at least one part, no part holds `sep`. */
  function Split(s: string, sep: char): (parts: seq<string>)
    ensures |parts| >= 1
    ensures forall k :: 0 <= k < |parts| ==> sep !in parts[k]
    decreases |s|
  {
    if |s| == 0 then [""]
    else
      var rest := Split(s[1..], sep);
      if s[0] == sep then [""] + rest
      else [[s[0]] + rest[0]] + rest[1..]
  }

  /** The total length of the parts. */
  function TotalLength(parts: seq<string>): nat
  {
    if |parts| == 0 then 0 else |parts[0]| + TotalLength(parts[1..])
  }

  /**
   * The parts in order with `sep` between neighbours: JavaScript `parts.join(sep)`, Python `sep.join(parts)`.
   * The result starts with the first part and holds one separator fewer than there are parts; `JoinAppend`
   * states where every later part goes.
   */
  function Join(parts: seq<string>, sep: string): (r: string)
    ensures |parts| > 0 ==> parts[0] <= r
    ensures |parts| > 0 ==> |r| == TotalLength(parts) + (|parts| - 1) * |sep|
    ensures |parts| == 0 ==> r == ""
    ensures |parts| == 1 ==> r == parts[0]
  {
    if |parts| == 0 then ""
    else if |parts| == 1 then parts[0]
    else parts[0] + sep + Join(parts[1..], sep)
  }

  /** Joining two non-empty lists of parts is joining each and putting one separator between the results. */
  lemma {:induction false} JoinAppend(a: seq<string>, b: seq<string>, sep: string)
    requires |a| > 0 && |b| > 0
    ensures Join(a + b, sep) == Join(a, sep) + sep + Join(b, sep)
    decreases |a|
  {
    if |a| == 1 {
      assert (a + b)[1..] == b;
    } else {
      assert (a + b)[1..] == a[1..] + b;
      JoinAppend(a[1..], b, sep);
    }
  }

  /** Splitting and re-joining on the same separator gives back the string. */
  lemma {:induction false} JoinSplit(s: string, sep: char)
    ensures Join(Split(s, sep), [sep]) == s
    decreases |s|
  {
    if |s| > 0 {
      var rest := Split(s[1..], sep);
      JoinSplit(s[1..], sep);
      if s[0] == sep {
        assert Split(s, sep) == [""] + rest;
        assert ([""] + rest)[1..] == rest;
        assert s == [sep] + s[1..];
      } else if |rest| == 1 {
        assert Split(s, sep) == [[s[0]] + rest[0]];
        assert s == [s[0]] + s[1..];
      } else {
        var parts := Split(s, sep);
        assert parts == [[s[0]] + rest[0]] + rest[1..];
        assert parts[1..] == rest[1..];
        assert Join(rest, [sep]) == rest[0] + [sep] + Join(rest[1..], [sep]);
        assert s == [s[0]] + s[1..];
      }
    }
  }

  /** Split is the only way to cut `s` into separator-free parts that join back to `s`. */
  lemma {:induction false} SplitUnique(s: string, sep: char, parts: seq<string>)
    requires |parts| >= 1
    requires forall k :: 0 <= k < |parts| ==> sep !in parts[k]
    requires Join(parts, [sep]) == s
    ensures parts == Split(s, sep)
    decreases |s|
  {
    var rest := if |parts| == 1 then "" else [sep] + Join(parts[1..], [sep]);
    assert s == parts[0] + rest;
    if |parts[0]| > 0 {
      var c := parts[0][0];
      var tail := [parts[0][1..]] + parts[1..];
      assert c != sep by { assert c in parts[0]; }
      assert Join(tail, [sep]) == parts[0][1..] + rest by {
        assert tail[1..] == parts[1..];
      }
      assert parts[0] == [c] + parts[0][1..];
      assert s == [c] + Join(tail, [sep]);
      assert s[1..] == Join(tail, [sep]);
      forall k | 0 <= k < |tail|
        ensures sep !in tail[k]
      {
        if k == 0 {
          assert forall x :: x in parts[0][1..] ==> x in parts[0];
        } else {
          assert tail[k] == parts[k];
        }
      }
      SplitUnique(s[1..], sep, tail);
      assert tail[1..] == parts[1..];
    } else if |parts| > 1 {
      assert s == [sep] + Join(parts[1..], [sep]);
      assert s[1..] == Join(parts[1..], [sep]);
      SplitUnique(s[1..], sep, parts[1..]);
      assert parts == [""] + parts[1..];
    }
  }

  /** The first index of `x` in `xs`: JavaScript `xs.indexOf(x)`, with `None` for -1. */
  function IndexOf(xs: seq<string>, x: string): (r: Option<nat>)
    ensures r.Some? ==> r.value < |xs| && xs[r.value] == x && forall j :: 0 <= j < r.value ==> xs[j] != x
    ensures r.None? <==> x !in xs
  {
    if |xs| == 0 then None
    else if xs[0] == x then Some(0)
    else
      var r := IndexOf(xs[1..], x);
      if r.Some? then Some(r.value + 1) else None
  }

  /** JavaScript array indexing: `xs[i]`, `undefined` (None) outside the array, negative indices included. */
  function At(xs: seq<string>, i: int): Option<string>
  {
    if 0 <= i < |xs| then Some(xs[i]) else None
  }

  /** JavaScript truthiness of a string that may be `null`/`undefined`: present and non-empty. */
  predicate Truthy(o: Option<string>)
  {
    o.Some? && o.value != ""
  }

  /** Every occurrence of `from` replaced by `to`: `s.replace(/-/g, ' ')` for `from == '-'`, `to == ' '`. */
  function ReplaceChar(s: string, from: char, to: char): (r: string)
    ensures |r| == |s|
    ensures forall i :: 0 <= i < |s| ==> r[i] == (if s[i] == from then to else s[i])
  {
    if |s| == 0 then ""
    else [if s[0] == from then to else s[0]] + ReplaceChar(s[1..], from, to)
  }

  /** JavaScript `s.slice(0, n)`: the first `n` characters, or all of `s` when it is shorter. */
  function Take(s: string, n: nat): (r: string)
    ensures |r| == if |s| < n then |s| else n
    ensures r <= s
  {
    if |s| <= n then s else s[..n]
  }

  /** What `\d` matches: an ASCII decimal digit. */
  predicate IsDigit(c: char)
  {
    '0' <= c <= '9'
  }

  /** The regular expression `/^\d+$/`: non-empty and every character an ASCII decimal digit. */
  predicate AllDigits(s: string)
  {
    |s| > 0 && forall i :: 0 <= i < |s| ==> IsDigit(s[i])
  }

  /** `/^\d+$/.test(s)` as the regular expression runs: a digit, then either the end or a match of the rest. */
  predicate MatchDigits(s: string)
  {
    |s| > 0 && IsDigit(s[0]) && (|s| == 1 || MatchDigits(s[1..]))
  }

  /** The matcher accepts exactly the non-empty all-digit strings. */
  lemma {:induction false} AllDigitsRegex(s: string)
    ensures MatchDigits(s) <==> AllDigits(s)
  {
    if |s| > 1 {
      AllDigitsRegex(s[1..]);
      if AllDigits(s) {
        assert forall i :: 0 <= i < |s| - 1 ==> s[1..][i] == s[i + 1];
      }
      if MatchDigits(s) {
        forall i | 0 <= i < |s|
          ensures IsDigit(s[i])
        {
          if i > 0 {
            assert s[i] == s[1..][i - 1];
          }
        }
      }
    }
  }
}

=== FILE: wrappers.dfy ===
/** Option and Result values shared by the resolver, the catalog and the stock checker. */
module Wrappers {

  /** A value that may be absent: JavaScript `null`/`undefined`, Python `None`. */
  datatype Option<+T> = None | Some(value: T) {
    function GetOr(default: T): T {
      match this
      case Some(v) => v
      case None => default
    }
  }

  /** A success value or an error message (a thrown `Error` caught and turned into `{ error }`). */
  datatype Result<+T> = Ok(value: T) | Err(error: string)
}
